=== FILE: README.md ===
# Velocity and acceleration of a GPS track, with timestamp-collision resolution

This project models the numeric core of `AIMDataAnalysis.py`. The script
takes an ordered GPS track whose points carry `HH:MM:SS` labels. It
computes a velocity for each point (distance over time between neighbours)
and then an acceleration (change of velocity over the same time). The hard
part is the time between two neighbours:

- Labels have whole-second granularity and ignore the hour.
- When the minute field changes, the second of the later point is shifted
  by the minute difference. A backwards minute is taken as one wrap past
  the hour.
- A second that goes down while the minute stays the same is not read as a
  wrap: the pair gets a negative delta (`Resolver.BackwardSecondCase`).
- Several consecutive points can share one label. When a pair of equal
  labels is met, the look-ahead (`countRepeats`) counts how many labels from
  there share the SECOND field; minutes are not compared. A run of `k` equal
  labels closed by a label with another second, met while no run at that
  second is still counting down, gives each of its `k - 1` pairs `1/k` of a
  second (`Resolver.RunSubdivision`). When the label after the run has the
  same second in another minute, the count goes on past the run, and the
  run's pairs get a smaller share (`Resolver.SecondOnlyRunCase`). The
  countdown, made too long by that overshoot, then also governs the pairs
  after the run: ordinary pairs still count it down, and a later pair of
  equal labels at the run's corrected second gets the stale share
  (`Resolver.StaleShareCase`: `00:00:10, 00:00:10, 00:01:10, 00:01:10,
  00:01:11` resolve to `1/4, 60, 1/4, 1`). The resolver carries `tmpSecs`,
  `tmpTime` and `repeats` from one pair to the next while the run drains.

The modules follow the script's structure:

- `Results` (`results.dfy`): `Option`, `Result` and the `Fault`s the
  script can stop with:
  - `InsufficientData`: the padding step indexes an empty list.
  - `MalformedTimestamp`: `int()` rejects a field.
  - `RunLengthOverrun`: the look-ahead indexes past the end.
  - `UnboundLocal`: a local is read before any assignment.
- `Timestamps` (`timestamps.dfy`): `seconds` and `minutes` as Python's
  slicing and `int()` compute them, and the minute-rollover correction. It
  also has a reference formula (`Elapsed`: the second difference plus sixty
  times the minute difference modulo the hour) and a formatter
  (`FormatLabel`) that serve as partners for the proofs.
- `Runs` (`runs.dfy`): `countRepeats`.
- `Resolver` (`resolver.dfy`): the per-pair delta loop shared by both passes.
  It is a fold over adjacent pairs with an explicit state.
- `Derivatives` (`derivatives.dfy`): the generic finite-difference pass
  and its two uses, velocities and accelerations. Both include the
  padding of the last value. Both divide by the deltas of the corrected
  loop `Resolver.Resolve`, where `repeats` starts at 0 (see "## Findings").
  So on a track such as `00:00:10, 00:00:11` the model returns a series
  where the script as written raises `UnboundLocalError`.

The resolver reads the minute and second fields of every label once, up
front (`ReadTrack`). A field that is not an integer becomes `None`. The
`MalformedTimestamp` fault is raised only when the loop reaches that pair
and reads that field, in the order of lines 120-123. So the fault reported
is the one the script would raise first.

Some consequences of the code that a reader might not expect:

- A run's `k - 1` shares add up to `(k - 1)/k` of a second, not to one
  second (`Resolver.RunSharesTotal`).
- Labels `00:00:10, 00:00:10, 00:00:11` resolve to deltas `0.5, 1.0`. The
  run is drained after its single pair, and the pair leaving it is an
  ordinary one-second pair (`Resolver.ShortRunCase`).
- When a run reaches the last label, the look-ahead indexes the pandas
  Series past its end (line 101), which raises `KeyError`. This is modelled
  as the fault `RunLengthOverrun`.

Reals stand in for Python floats, so every equation below is exact.

## Model

| member | source | states |
|---|---|---|
| Timestamps.ParseField | AIMDataAnalysis.py:91 | `int()` of a field of at most two characters: one or two digits read as the decimal number they spell; a digit with one surrounding space, a `+` or a `-` reads as that digit, signed; every other field is rejected: one without a digit, one ending in anything but a digit or a space after a digit, one starting with anything but a digit, a space or a sign; every value lies in -9..99 |
| Timestamps.ParseTwoDigits | AIMDataAnalysis.py:91 | reading a rendered two-digit field gives back its number |
| Timestamps.LabelFields | AIMDataAnalysis.py:90-95 | on an eight-character label with digits at 3, 4, 6, 7, `seconds` is the number in characters 6-7 and `minutes` the number in characters 3-4, each in 0..99; a well-formed label has both within an hour |
| Timestamps.FormatThenRead | AIMDataAnalysis.py:90-95 | reading the label rendered from (hour, minute, second) gives back minute and second, and the label is well-formed exactly when both are below 60 |
| Timestamps.ReadThenFormat | AIMDataAnalysis.py:90-95 | every well-formed label is the rendering of its own hour and the minute and second `minutes`/`seconds` read from it |
| Timestamps.RolloverIsModular | AIMDataAnalysis.py:127-131 | for minutes of one hour the correction added to the second point's second is 60 times the minute difference modulo 60: never negative, zero exactly when the minutes agree |
| Timestamps.CorrectedSecondIsElapsed | AIMDataAnalysis.py:120-131 | for two readings within an hour, the corrected second minus the first second equals `Elapsed`, the second difference plus sixty times the minute difference modulo the hour; the corrected second is never negative, and it equals the first second exactly when the two readings are equal |
| Runs.CountFrom | AIMDataAnalysis.py:99-104 | the look-ahead loop from `count`: a result is the first index whose second differs, all between match; overrun happens exactly when every remaining label matches; a malformed fault names the first unreadable label |
| Runs.CountRepeats | AIMDataAnalysis.py:98-104 | `countRepeats(data, spot)`: result `c >= 2` with labels `spot+1 .. spot+c-2` sharing `spot`'s second and label `spot+c-1` readable with another second; `RunLengthOverrun(spot)` exactly when every later label shares it; otherwise the first unreadable label |
| Runs.CountRepeatsOfRun | AIMDataAnalysis.py:98-104 | a run of equal seconds of length `k - 1` after `spot`, closed by a readable different second, is counted as exactly `k` |
| Resolver.Choose | AIMDataAnalysis.py:135-145 | the chosen delta is a share in (0, 1/2] or a nonzero whole number of seconds; the remembered share stays a share; faults are a later label whose second field is unreadable, an overrun of the look-ahead from the second point, or `tmpTime` read unassigned at this pair |
| Resolver.Settle | AIMDataAnalysis.py:151-157 | the countdown keeps the chosen delta and share; while a run is active (`tmpSecs` set) `repeats` drops by one, otherwise it is kept; `tmpSecs` is the sentinel afterwards exactly when no run was active or `repeats` reached 0, and otherwise keeps its value; it fails only when `repeats` was never assigned |
| Resolver.Step | AIMDataAnalysis.py:119-157 | one loop iteration: the delta is a share or a nonzero whole gap; a fault names this pair, its second point or a label of the look-ahead, and a malformed fault names a label whose second field (or, for the pair's own labels, minute field) is unreadable |
| Resolver.ResolveFrom | AIMDataAnalysis.py:115-157 | the fold from pair `i`: one delta per remaining pair, each a share or a nonzero whole gap |
| Resolver.Resolve | AIMDataAnalysis.py:107-157 | the corrected loop (`repeats` starts at 0): one delta per adjacent pair, none of them zero, so the divisions at lines 148 and 197 never divide by zero |
| Resolver.ResolveAsWritten | AIMDataAnalysis.py:107-157 | the loop as written: when it succeeds, one nonzero delta per adjacent pair |
| Resolver.OrdinaryPair | AIMDataAnalysis.py:127-143 | a pair of distinct readings within an hour, met while no run is active, gets exactly the `Elapsed` seconds between them, never zero and negative when the second goes down within one minute, and leaves the state unchanged |
| Resolver.OrdinaryPairDuringRun | AIMDataAnalysis.py:127-157 | a pair of distinct readings within an hour whose corrected second differs from that of a run still counting down gets its `Elapsed` seconds, and the run's countdown still drops by one |
| Resolver.ResolveWithoutRepeats | AIMDataAnalysis.py:115-157 | on a track within an hour with no two equal neighbours, the stateful loop equals the stateless list of `Elapsed` seconds between neighbours |
| Resolver.StepOpensRun | AIMDataAnalysis.py:136-141 | a repeated pair whose look-ahead counts `k`, met while no run at its corrected second is counting down, gets `1/k` and leaves `k - 2` pairs to drain |
| Resolver.StepInsideRun | AIMDataAnalysis.py:144-157 | a later pair of an active run gets the remembered share and counts the run down by one |
| Resolver.RunSubdivision | AIMDataAnalysis.py:133-157 | a run of `k >= 2` equal readings closed by a different second, met while no run at that second is still counting down: its `k - 1` pairs each get `1/k`, and the loop continues idle from the run's last reading |
| Resolver.RunSharesTotal | AIMDataAnalysis.py:136-141 | the `k - 1` shares of a run of `k` add up to `(k - 1)/k` second |
| Resolver.ResolveSucceeds | AIMDataAnalysis.py:115-157 | on readings within an hour whose last two seconds differ, the corrected loop never faults |
| Resolver.AsWrittenStopsOnOrdinaryStart | AIMDataAnalysis.py:154-156 | as written, a track whose first pair is two distinct readings within an hour stops at pair 0 with `repeats` unbound |
| Resolver.AsWrittenAgreesOnRunStart | AIMDataAnalysis.py:136-157 | when the first pair is a repeated pair, the loop as written and the corrected loop give the same outcome |
| Resolver.AsWrittenCounterexample | AIMDataAnalysis.py:156 | labels `00:00:10, 00:00:11`: as written the loop stops with `repeats` unbound; corrected it yields one delta of one second |
| Resolver.MinuteRolloverCase | AIMDataAnalysis.py:127-131 | `00:00:58` then `00:01:02` resolve to 4 seconds, not -56 |
| Resolver.ShortRunCase | AIMDataAnalysis.py:133-157 | `00:00:10, 00:00:10, 00:00:11` resolve to deltas 0.5 and 1.0 |
| Resolver.BackwardSecondCase | AIMDataAnalysis.py:127-143 | `00:00:30` then `00:00:20` resolve to -10 seconds: a second that goes down within one minute is not read as a wrap |
| Resolver.SecondOnlyRunCase | AIMDataAnalysis.py:98-157 | `00:00:10, 00:00:10, 00:01:10, 00:01:11` resolve to `1/3, 60, 1`: the look-ahead counts the label a minute later into the run |
| Resolver.StaleShareCase | AIMDataAnalysis.py:98-157 | `00:00:10, 00:00:10, 00:01:10, 00:01:10, 00:01:11` resolve to `1/4, 60, 1/4, 1`: the overlong countdown hands the second pair of equal labels the stale share 1/4 |
| Derivatives.CoverIsUnique | AIMDataAnalysis.py:148 | over a nonzero time only one rate covers a given amount, so each rate is determined by its amount and delta |
| Derivatives.Rates | AIMDataAnalysis.py:147-160 | one rate per pair that times that pair's delta gives its amount, followed by the last rate again |
| Derivatives.Derivative | AIMDataAnalysis.py:107-161 | fewer than two points fault; otherwise it succeeds exactly when the corrected loop `Resolver.Resolve` does, with that loop's fault; one value per point, the last repeating the one before, each other value times its pair's delta giving that pair's amount |
| Derivatives.Accelerations | AIMDataAnalysis.py:165-208 | as for the velocities, over the deltas of the corrected loop `Resolver.Resolve`: it succeeds exactly when that loop does, and each acceleration times its pair's delta gives the change of velocity across the pair |
| Derivatives.DifferencesTelescope | AIMDataAnalysis.py:171 | the velocity changes of the first `j` pairs add up to the change from the first velocity to velocity `j` |
| Derivatives.AccelerationTailIsZero | AIMDataAnalysis.py:160-207 | whenever the velocity pass succeeds the acceleration pass on its output does too, and the last two accelerations are zero because of the velocity padding |
| Derivatives.ConstantSpeed | AIMDataAnalysis.py:107-160 | readings within an hour with no repeated pair, each distance `speed` times the `Elapsed` seconds of its pair: every velocity is `speed` |
| Derivatives.SteadyVelocities | AIMDataAnalysis.py:165-208 | equal velocities at every point of a track that resolves give zero acceleration at every point |
| Derivatives.ShortRunVelocities | AIMDataAnalysis.py:107-160 | on `00:00:10, 00:00:10, 00:00:11` with both distances `step`, the velocities are `2 step, step, step` |

## Left out

- Reading the three input formats (lines 6-67) and plotting (lines 69-85): these only produce and consume the track.
- The Euclidean distance (line 117): distances are an input of the velocity pass, one per adjacent pair.
- Writing the columns into the data frame and the top-level calls (lines 161, 208, 211-213): the passes return the series instead.
- Hour changes: the hour field is never read (lines 125 and 178), and neither is it in the model. A gap of an hour or more is not representable.
- Backwards seconds: a second that goes down within one minute gives a negative delta, and so a negative velocity (`Resolver.BackwardSecondCase`), while a minute that goes down is read as a wrap. The model keeps this as written. Input tracks are expected to move forward in time, so no corrected behaviour is evident.
- Floating point: reals are used, so rounding in `1/float(count)` and in the divisions is not modelled.
- `int()` on non-ASCII digits or whitespace: only ASCII digits, ASCII whitespace and a leading sign are modelled.
- Timestamps.Seconds, Timestamps.Minutes: carry no contract of their own. What they read from a label is stated by `Timestamps.LabelFields`, `Timestamps.FormatThenRead` and `Timestamps.ParseField`.
- Timestamps.Rollover: carries no contract of its own. It is stated by `Timestamps.RolloverIsModular` and `Timestamps.CorrectedSecondIsElapsed`.
- Derivatives.Differences: its contract repeats its body, the later value minus the earlier for each adjacent pair (line 171). Its meaning is stated by `Derivatives.DifferencesTelescope` and by the `Derivatives.Accelerations` contract.
- Derivatives.Velocities: carries no contract of its own. It is `Derivatives.Derivative` applied to the distances, and that contract covers it.
- Resolver.ResolveAsWritten: its contract only covers success. Its failure at the first ordinary pair is stated by `Resolver.AsWrittenStopsOnOrdinaryStart`.

## Findings

| source | as written | input that shows it | evidently intended | confidence | as-written member | corrected member |
|---|---|---|---|---|---|---|
| AIMDataAnalysis.py:154-157 | `repeats` is assigned only when a repeated pair is met (line 141), but `if repeats == 0` at line 156 runs on every iteration. So the first pair raises `UnboundLocalError` unless it is a repeated pair. The same holds for lines 202-205 of the acceleration pass. | labels `00:00:10, 00:00:11` | `repeats` starts at 0 alongside `tmpSecs`, so ordinary pairs pass through | high, not executed | Resolver.AsWrittenCounterexample | Resolver.ResolveSucceeds |

=== FILE: derivatives.dfy ===
/** The finite-difference engine and the two passes built on it: velocities
    from the distance covered by each pair of points, and accelerations from
    the change of velocity across each pair. Both passes divide by the deltas
    of the same resolver. */
module Derivatives {
  import opened Results
  import opened Timestamps
  import opened Resolver

  /** `rate` per second for `seconds` seconds covers `amount`. */
  predicate Covers(rate: real, seconds: real, amount: real) {
    rate * seconds == amount
  }

  /** Over a nonzero time span only one rate covers a given amount. */
  lemma CoverIsUnique(rate: real, other: real, seconds: real, amount: real)
    requires seconds != 0.0
    requires Covers(rate, seconds, amount) && Covers(other, seconds, amount)
    ensures rate == other
  {
    assert (rate - other) * seconds == 0.0;
  }

  /** The rate of each pair, `amounts[i]` per `deltas[i]` seconds, followed by
      the last rate once more so the series has one entry per point. */
  function Rates(amounts: seq<real>, deltas: seq<real>): (d: seq<real>)
    requires |amounts| == |deltas| > 0
    requires forall i :: 0 <= i < |deltas| ==> deltas[i] != 0.0
    ensures |d| == |amounts| + 1
    ensures forall i :: 0 <= i < |amounts| ==> Covers(d[i], deltas[i], amounts[i])
    ensures d[|amounts|] == d[|amounts| - 1]
  {
    var quotients := seq(|amounts|, i requires 0 <= i < |amounts| => amounts[i] / deltas[i]);
    quotients + [quotients[|amounts| - 1]]
  }

  /** The change from each value to the next. */
  function Differences(v: seq<real>): (dv: seq<real>)
    ensures |dv| == if |v| == 0 then 0 else |v| - 1
    ensures forall i :: 0 <= i < |dv| ==> dv[i] == v[i + 1] - v[i]
  {
    if |v| == 0 then [] else seq(|v| - 1, i requires 0 <= i < |v| - 1 => v[i + 1] - v[i])
  }

  /** Appending a value adds it to the sum. */
  lemma {:induction false} SumAppend(s: seq<real>, x: real)
    ensures Sum(s + [x]) == Sum(s) + x
  {
    if |s| > 0 {
      assert (s + [x])[1..] == s[1..] + [x];
      SumAppend(s[1..], x);
    }
  }

  /** The differences telescope: the first `j` of them add up to the change
      from the first value to value `j`. */
  lemma {:induction false} DifferencesTelescope(v: seq<real>, j: nat)
    requires j < |v|
    ensures Sum(Differences(v)[..j]) == v[j] - v[0]
  {
    var dv := Differences(v);
    if j > 0 {
      assert dv[..j] == dv[..j - 1] + [dv[j - 1]];
      SumAppend(dv[..j - 1], dv[j - 1]);
      DifferencesTelescope(v, j - 1);
    }
  }

  /** The finite-difference pass over a track whose labels read as `track`:
      `amounts[i]` is the change from point i to point i + 1, divided by the
      resolved delta of that pair, and the last rate is repeated. */
  function Derivative(track: seq<Reading>, amounts: seq<real>): (r: Result<seq<real>>)
    requires |track| >= 2 ==> |amounts| == |track| - 1
    ensures |track| < 2 ==> r == Err(InsufficientData)
    ensures |track| >= 2 ==> (r.Ok? <==> Resolve(track).Ok?)
    ensures |track| >= 2 && r.Err? ==> r.fault == Resolve(track).fault
    ensures r.Ok? ==>
      && |track| >= 2
      && |r.value| == |track|
      && r.value[|track| - 1] == r.value[|track| - 2]
      && forall i :: 0 <= i < |track| - 1 ==> Covers(r.value[i], Resolve(track).value[i], amounts[i])
  {
    if |track| < 2 then Err(InsufficientData)
    else
      var deltas :- Resolve(track);
      Ok(Rates(amounts, deltas))
  }

  /** `addVelocitiesDF`: `distances[i]` is the distance from point i to
      point i + 1. */
  function Velocities(track: seq<Reading>, distances: seq<real>): Result<seq<real>>
    requires |track| >= 2 ==> |distances| == |track| - 1
  {
    Derivative(track, distances)
  }

  /** `addAccelerationsDF`: the change of velocity across each pair, over the
      same resolved deltas as the velocity pass. */
  function Accelerations(track: seq<Reading>, velocities: seq<real>): (r: Result<seq<real>>)
    requires |velocities| == |track|
    ensures |track| < 2 ==> r == Err(InsufficientData)
    ensures |track| >= 2 ==> (r.Ok? <==> Resolve(track).Ok?)
    ensures |track| >= 2 && r.Err? ==> r.fault == Resolve(track).fault
    ensures r.Ok? ==>
      && |track| >= 2
      && |r.value| == |track|
      && r.value[|track| - 1] == r.value[|track| - 2]
      && forall i :: 0 <= i < |track| - 1 ==>
           Covers(r.value[i], Resolve(track).value[i], velocities[i + 1] - velocities[i])
  {
    Derivative(track, Differences(velocities))
  }

  /** Whenever the velocity pass succeeds, so does the acceleration pass on
      its output, and because the velocity series ends with a repeated value
      the last two accelerations are both zero. */
  lemma AccelerationTailIsZero(track: seq<Reading>, distances: seq<real>)
    requires |track| >= 2 ==> |distances| == |track| - 1
    requires Velocities(track, distances).Ok?
    ensures Accelerations(track, Velocities(track, distances).value).Ok?
    ensures var a := Accelerations(track, Velocities(track, distances).value).value;
      a[|track| - 2] == 0.0 && a[|track| - 1] == 0.0
  {
    var n := |track|;
    var v := Velocities(track, distances).value;
    var dt := Resolve(track).value;
    var a := Accelerations(track, v).value;
    assert Covers(a[n - 2], dt[n - 2], v[n - 1] - v[n - 2]);
    CoverIsUnique(a[n - 2], 0.0, dt[n - 2], 0.0);
  }

  /** Points moving a constant `speed` per second between readings that never
      repeat all have velocity `speed`. */
  lemma ConstantSpeed(track: seq<Reading>, distances: seq<real>, speed: real)
    requires |track| >= 2 && |distances| == |track| - 1
    requires HourTrack(track) && NoRepeatedPair(track)
    requires forall i :: 0 <= i < |distances| ==> Covers(speed, Gap(track[i], track[i + 1]) as real, distances[i])
    ensures Velocities(track, distances) == Ok(seq(|track|, _ => speed))
  {
    var n := |track|;
    ResolveWithoutRepeats(track);
    var dt := Resolve(track).value;
    var v := Velocities(track, distances).value;
    forall i | 0 <= i < n
      ensures v[i] == speed
    {
      var k := if i < n - 1 then i else n - 2;
      assert Covers(v[k], dt[k], distances[k]);
      assert dt[k] == Gap(track[k], track[k + 1]) as real;
      assert Covers(speed, dt[k], distances[k]);
      CoverIsUnique(v[k], speed, dt[k], distances[k]);
    }
    assert v == seq(n, _ => speed);
  }

  /** Constant velocities over a track that resolves give zero acceleration
      at every point. */
  lemma SteadyVelocities(track: seq<Reading>, speed: real)
    requires |track| >= 2 && Resolve(track).Ok?
    ensures Accelerations(track, seq(|track|, _ => speed)) == Ok(seq(|track|, _ => 0.0))
  {
    var n := |track|;
    var dt := Resolve(track).value;
    var steady := seq(n, _ => speed);
    var a := Accelerations(track, steady).value;
    forall i | 0 <= i < n
      ensures a[i] == 0.0
    {
      var k := if i < n - 1 then i else n - 2;
      assert Covers(a[k], dt[k], steady[k + 1] - steady[k]);
      CoverIsUnique(a[k], 0.0, dt[k], 0.0);
    }
    assert a == seq(n, _ => 0.0);
  }

  /** Points at 00:00:10, 00:00:10 and 00:00:11, each pair `step` apart: the
      pair inside the run moves at twice `step` per second, the pair leaving
      it at `step` per second, and that last velocity is repeated. */
  lemma ShortRunVelocities(step: real)
    ensures Velocities(ReadTrack(["00:00:10", "00:00:10", "00:00:11"]), [step, step])
      == Ok([2.0 * step, step, step])
  {
    ShortRunCase();
    HalfThenWhole(ReadTrack(["00:00:10", "00:00:10", "00:00:11"]), step);
  }

  /** Over deltas of half a second then a whole second, equal steps give
      twice the step, then the step, repeated. */
  lemma HalfThenWhole(track: seq<Reading>, step: real)
    requires |track| == 3 && Resolve(track) == Ok([0.5, 1.0])
    ensures Velocities(track, [step, step]) == Ok([2.0 * step, step, step])
  {
    var v := Velocities(track, [step, step]).value;
    assert Covers(v[0], 0.5, step);
    CoverIsUnique(v[0], 2.0 * step, 0.5, step);
    assert Covers(v[1], 1.0, step);
    CoverIsUnique(v[1], step, 1.0, step);
    assert v == [2.0 * step, step, step];
  }
}

=== FILE: resolver.dfy ===
/** The per-pair time-delta resolver that the velocity and the acceleration
    passes both run: a left-to-right fold over adjacent label pairs carrying
    the state (tmpSecs, tmpTime, repeats). A pair whose labels differ gets
    the whole seconds between them; the pairs inside a run of k equal labels
    get a share of 1/k second each. */
module Resolver {
  import opened Results
  import opened Timestamps
  import opened Runs

  /** Value of `tmpSecs` while no run of repeated labels is being resolved. */
  const NoRun: int := -1

  /** `tmpSecs`: corrected second of the run being resolved, or NoRun;
      `tmpTime`: the share handed to each pair of that run;
      `repeats`: pairs of that run still to resolve.
      `None` marks a local variable that has not been assigned yet. */
  datatype State = State(tmpSecs: int, tmpTime: Option<real>, repeats: Option<int>)

  /** The delta of one pair and the state the next pair starts from. */
  datatype Resolved = Resolved(delta: real, next: State)

  /** The state the loop starts in as written: `repeats` is not assigned. */
  const Unassigned: State := State(NoRun, None, None)

  /** The state the loop starts in once `repeats` starts at 0. */
  const Initial: State := State(NoRun, None, Some(0))

  /** A share of a second handed to a pair inside a run of at least two labels. */
  predicate IsShare(d: real) {
    0.0 < d <= 0.5
  }

  /** A nonzero whole number of seconds between two distinguishable labels. */
  predicate IsWholeGap(d: real) {
    d == d.Floor as real && d != 0.0
  }

  /** Whatever share the state remembers is a genuine share. */
  predicate Sound(st: State) {
    st.tmpTime.Some? ==> IsShare(st.tmpTime.value)
  }

  function Read(field: Option<int>, at: nat): Result<int> {
    match field
    case Some(v) => Ok(v)
    case None => Err(MalformedTimestamp(at))
  }

  /** The choice of the delta of pair `i`, given the second of its first point
      and the corrected second of its second point. */
  function Choose(track: seq<Reading>, i: nat, st: State, firstSecs: int, secondSecs: int): (r: Result<Resolved>)
    requires i + 1 < |track|
    requires Sound(st)
    ensures r.Ok? ==> (IsShare(r.value.delta) || IsWholeGap(r.value.delta)) && Sound(r.value.next)
    ensures r.Err? ==> match r.fault
      case MalformedTimestamp(j) => i < j < |track| && track[j].second.None?
      case RunLengthOverrun(j) => j == i + 1
      case UnboundLocal(j) => j == i
      case InsufficientData => false
  {
    if secondSecs != st.tmpSecs then
      if secondSecs == firstSecs then
        var count :- CountRepeats(SecondReadings(track), i + 1);
        var share := 1.0 / (count as real);
        Ok(Resolved(share, State(secondSecs, Some(share), Some(count - 1))))
      else
        Ok(Resolved((secondSecs - firstSecs) as real, st))
    else
      match st.tmpTime
      case None => Err(UnboundLocal(i))
      case Some(t) => Ok(Resolved(t, st))
  }

  /** The bookkeeping after pair `i`: count down an active run and clear it
      once no pairs of it remain. */
  function Settle(chosen: Resolved, i: nat): (r: Result<Resolved>)
    ensures r.Ok? ==> r.value.delta == chosen.delta && r.value.next.tmpTime == chosen.next.tmpTime
    ensures r.Ok? ==> r.value.next.repeats.Some?
    ensures r.Ok? && r.value.next.tmpSecs != NoRun ==> r.value.next.tmpSecs == chosen.next.tmpSecs
    ensures r.Err? ==> r.fault == UnboundLocal(i)
    ensures chosen.next.repeats.Some? ==> r.Ok?
    // while a run is active its countdown drops by one; otherwise it is kept
    ensures r.Ok? && chosen.next.tmpSecs != NoRun ==>
      chosen.next.repeats.Some? && r.value.next.repeats == Some(chosen.next.repeats.value - 1)
    ensures r.Ok? && chosen.next.tmpSecs == NoRun ==> r.value.next.repeats == chosen.next.repeats
    // the run ends exactly when no run was active or the countdown reaches zero
    ensures r.Ok? ==> (r.value.next.tmpSecs == NoRun <==> chosen.next.tmpSecs == NoRun || r.value.next.repeats == Some(0))
  {
    var st := chosen.next;
    var counted :- if st.tmpSecs != NoRun then
        match st.repeats
        case None => Err(UnboundLocal(i))
        case Some(n) => Ok(st.(repeats := Some(n - 1)))
      else Ok(st);
    match counted.repeats
    case None => Err(UnboundLocal(i))
    case Some(n) => Ok(Resolved(chosen.delta, if n == 0 then counted.(tmpSecs := NoRun) else counted))
  }

  /** One iteration of the loop: the delta of the pair (i, i + 1). */
  function Step(track: seq<Reading>, i: nat, st: State): (r: Result<Resolved>)
    requires i + 1 < |track|
    requires Sound(st)
    ensures r.Ok? ==> (IsShare(r.value.delta) || IsWholeGap(r.value.delta)) && Sound(r.value.next)
    ensures r.Err? ==> match r.fault
      case MalformedTimestamp(j) =>
        && i <= j < |track|
        && (track[j].second.None? || (j <= i + 1 && track[j].minute.None?))
      case RunLengthOverrun(j) => j == i + 1
      case UnboundLocal(j) => j == i
      case InsufficientData => false
  {
    var firstSecs :- Read(track[i].second, i);
    var firstMins :- Read(track[i].minute, i);
    var secondSecs :- Read(track[i + 1].second, i + 1);
    var secondMins :- Read(track[i + 1].minute, i + 1);
    var chosen :- Choose(track, i, st, firstSecs, secondSecs + Rollover(firstMins, secondMins));
    Settle(chosen, i)
  }

  /** The deltas of the pairs from (i, i + 1) on, starting in state `st`. */
  function ResolveFrom(track: seq<Reading>, i: nat, st: State): (r: Result<seq<real>>)
    requires Sound(st)
    decreases |track| - i
    ensures r.Ok? ==> |r.value| == if i + 1 < |track| then |track| - 1 - i else 0
    ensures r.Ok? ==> forall k :: 0 <= k < |r.value| ==> IsShare(r.value[k]) || IsWholeGap(r.value[k])
  {
    if i + 1 >= |track| then Ok([])
    else
      var head :- Step(track, i, st);
      var rest :- ResolveFrom(track, i + 1, head.next);
      Ok([head.delta] + rest)
  }

  /** The delta of every adjacent pair, with `repeats` starting at 0: one
      nonzero delta per pair, each a share of a second or a whole number of
      seconds, so that dividing by it is always defined. */
  function Resolve(track: seq<Reading>): (r: Result<seq<real>>)
    ensures r.Ok? && |track| >= 2 ==> |r.value| == |track| - 1
    ensures r.Ok? ==> forall k :: 0 <= k < |r.value| ==> r.value[k] != 0.0
  {
    ResolveFrom(track, 0, Initial)
  }

  /** The loop as written, where `repeats` has no value until a run is met. */
  function ResolveAsWritten(track: seq<Reading>): (r: Result<seq<real>>)
    ensures r.Ok? && |track| >= 2 ==> |r.value| == |track| - 1
    ensures r.Ok? ==> forall k :: 0 <= k < |r.value| ==> r.value[k] != 0.0
  {
    ResolveFrom(track, 0, Unassigned)
  }

  // ---------------------------------------------------------------------
  // Ordinary pairs

  /** The `Elapsed` seconds from reading `a` to reading `b`, or 0 when a
      field is unreadable. */
  function Gap(a: Reading, b: Reading): int {
    match (a, b)
    case (Reading(Some(m1), Some(s1)), Reading(Some(m2), Some(s2))) => Elapsed(Stamp(m1, s1), Stamp(m2, s2))
    case _ => 0
  }

  /** Every reading of the track is a minute and second of an hour. */
  predicate HourTrack(track: seq<Reading>) {
    forall j :: 0 <= j < |track| ==> InHour(track[j])
  }

  /** No two adjacent readings agree on both minute and second. */
  predicate NoRepeatedPair(track: seq<Reading>) {
    forall j :: 0 <= j < |track| - 1 ==> track[j] != track[j + 1]
  }

  /** A pair of distinct readings met while no run is active gets their
      `Gap`, the minute rollover included, and leaves the state as it was. */
  lemma OrdinaryPair(track: seq<Reading>, i: nat, st: State)
    requires i + 1 < |track|
    requires InHour(track[i]) && InHour(track[i + 1]) && track[i] != track[i + 1]
    requires Sound(st) && st.tmpSecs == NoRun && st.repeats.Some?
    ensures Step(track, i, st) == Ok(Resolved(Gap(track[i], track[i + 1]) as real, st))
    ensures Gap(track[i], track[i + 1]) != 0
    ensures track[i + 1].minute == track[i].minute && track[i + 1].second.value < track[i].second.value
      ==> Gap(track[i], track[i + 1]) < 0
  {
    CorrectedSecondIsElapsed(track[i], track[i + 1]);
  }

  /** A pair of distinct readings met while a run at another corrected second
      is still counting down gets its gap, and the countdown still drops. */
  lemma OrdinaryPairDuringRun(track: seq<Reading>, i: nat, sec: int, share: real, left: nat)
    requires i + 1 < |track| && left >= 1 && sec != NoRun && IsShare(share)
    requires InHour(track[i]) && InHour(track[i + 1]) && track[i] != track[i + 1]
    requires track[i].second.value + Gap(track[i], track[i + 1]) != sec
    ensures Step(track, i, State(sec, Some(share), Some(left)))
      == Ok(Resolved(Gap(track[i], track[i + 1]) as real, Draining(sec, share, left - 1)))
  {
    CorrectedSecondIsElapsed(track[i], track[i + 1]);
  }

  /** With no repeated pair, the stateful fold reduces to the stateless gap
      between each pair of neighbours. */
  lemma ResolveWithoutRepeats(track: seq<Reading>)
    requires |track| >= 2
    requires HourTrack(track) && NoRepeatedPair(track)
    ensures Resolve(track) == Ok(seq(|track| - 1, j requires 0 <= j < |track| - 1 => Gap(track[j], track[j + 1]) as real))
  {
    var gaps := seq(|track| - 1, j requires 0 <= j < |track| - 1 => Gap(track[j], track[j + 1]) as real);
    ResolveFromWithoutRepeats(track, 0);
    assert gaps[0..] == gaps;
  }

  lemma {:induction false} ResolveFromWithoutRepeats(track: seq<Reading>, i: nat)
    requires i + 1 < |track|
    requires HourTrack(track) && NoRepeatedPair(track)
    ensures ResolveFrom(track, i, Initial)
      == Ok(seq(|track| - 1, j requires 0 <= j < |track| - 1 => Gap(track[j], track[j + 1]) as real)[i..])
    decreases |track| - i
  {
    var gaps := seq(|track| - 1, j requires 0 <= j < |track| - 1 => Gap(track[j], track[j + 1]) as real);
    OrdinaryPair(track, i, Initial);
    FoldStep(track, i, Initial);
    if i + 2 < |track| {
      ResolveFromWithoutRepeats(track, i + 1);
      assert gaps[i..] == [gaps[i]] + gaps[i + 1..];
    } else {
      assert ResolveFrom(track, i + 1, Initial) == Ok([]);
      PrependToNothing([gaps[i]]);
      assert gaps[i..] == [gaps[i]];
    }
  }

  // ---------------------------------------------------------------------
  // Runs of repeated labels

  /** The state after the last pair of a run: no run active, the share kept. */
  function Idle(share: real): State {
    State(NoRun, Some(share), Some(0))
  }

  /** The state while `left` pairs of a run at corrected second `second` remain. */
  function Draining(second: int, share: real, left: int): State {
    if left == 0 then Idle(share) else State(second, Some(share), Some(left))
  }

  function Repeat(share: real, n: nat): (s: seq<real>)
    ensures |s| == n && forall j :: 0 <= j < n ==> s[j] == share
  {
    seq(n, _ => share)
  }

  /** Puts the deltas of earlier pairs in front of a fold's outcome. */
  function Prepend(prefix: seq<real>, r: Result<seq<real>>): Result<seq<real>> {
    match r
    case Ok(v) => Ok(prefix + v)
    case Err(f) => Err(f)
  }

  /** The first pair of a run of k equal readings, met while no run with the
      same second is active, gets 1/k and opens the run. */
  lemma StepOpensRun(track: seq<Reading>, j: nat, k: nat, st: State)
    requires j + 1 < |track| && k >= 2
    requires InHour(track[j]) && track[j + 1] == track[j]
    requires Sound(st) && st.tmpSecs != track[j].second.value
    requires CountRepeats(SecondReadings(track), j + 1) == Ok(k)
    ensures Step(track, j, st)
      == Ok(Resolved(1.0 / (k as real), Draining(track[j].second.value, 1.0 / (k as real), k - 2)))
  {
  }

  /** A later pair inside an active run gets the remembered share. */
  lemma StepInsideRun(track: seq<Reading>, t: nat, share: real, left: nat)
    requires t + 1 < |track| && left >= 1
    requires InHour(track[t]) && track[t + 1] == track[t]
    requires IsShare(share)
    ensures Step(track, t, State(track[t].second.value, Some(share), Some(left)))
      == Ok(Resolved(share, Draining(track[t].second.value, share, left - 1)))
  {
  }

  /** A fold whose first step succeeds is that step's delta in front of
      the fold from the next pair. */
  lemma FoldStep(track: seq<Reading>, i: nat, st: State)
    requires i + 1 < |track| && Sound(st) && Step(track, i, st).Ok?
    ensures ResolveFrom(track, i, st)
      == Prepend([Step(track, i, st).value.delta], ResolveFrom(track, i + 1, Step(track, i, st).value.next))
  {
  }

  lemma PrependToNothing(prefix: seq<real>)
    ensures Prepend(prefix, Ok([])) == Ok(prefix)
  {
    var nothing: seq<real> := [];
    assert prefix + nothing == prefix;
  }

  lemma PrependTwice(a: seq<real>, b: seq<real>, r: Result<seq<real>>)
    ensures Prepend(a, Prepend(b, r)) == Prepend(a + b, r)
  {
    match r
    case Ok(v) => assert a + (b + v) == (a + b) + v;
    case Err(_) =>
  }

  /** The remaining `left` pairs of a run each get the share, after which the
      resolver is idle. */
  lemma {:induction false} Drain(track: seq<Reading>, t: nat, left: nat, share: real)
    requires t + left < |track|
    requires InHour(track[t])
    requires forall j :: t <= j <= t + left ==> track[j] == track[t]
    requires IsShare(share)
    ensures ResolveFrom(track, t, Draining(track[t].second.value, share, left))
      == Prepend(Repeat(share, left), ResolveFrom(track, t + left, Idle(share)))
    decreases left
  {
    var sec := track[t].second.value;
    if left == 0 {
      assert Repeat(share, 0) == [];
      PrependTwice([], [], ResolveFrom(track, t, Idle(share)));
      match ResolveFrom(track, t, Idle(share))
      case Ok(v) => assert [] + v == v;
      case Err(_) =>
    } else {
      StepInsideRun(track, t, share, left);
      FoldStep(track, t, Draining(sec, share, left));
      assert track[t + 1] == track[t];
      Drain(track, t + 1, left - 1, share);
      PrependTwice([share], Repeat(share, left - 1), ResolveFrom(track, t + left, Idle(share)));
      assert [share] + Repeat(share, left - 1) == Repeat(share, left);
    }
  }

  /** A run of k >= 2 equal readings starting at `j`, followed by a reading
      with another second: each of its k - 1 pairs gets 1/k second, and the
      resolver then continues idle from the last reading of the run, so the
      pair leaving the run is an ordinary one. */
  lemma RunSubdivision(track: seq<Reading>, j: nat, k: nat, st: State)
    requires k >= 2 && j + k < |track|
    requires InHour(track[j]) && InHour(track[j + k])
    requires forall t :: j <= t < j + k ==> track[t] == track[j]
    requires track[j + k].second != track[j].second
    requires Sound(st) && st.tmpSecs != track[j].second.value
    ensures ResolveFrom(track, j, st)
      == Prepend(Repeat(1.0 / (k as real), k - 1), ResolveFrom(track, j + k - 1, Idle(1.0 / (k as real))))
  {
    var share := 1.0 / (k as real);
    OpenRun(track, j, k, st);
    assert track[j + 1] == track[j];
    Drain(track, j + 1, k - 2, share);
    PrependTwice([share], Repeat(share, k - 2), ResolveFrom(track, j + k - 1, Idle(share)));
    assert [share] + Repeat(share, k - 2) == Repeat(share, k - 1);
  }

  /** The fold over a run starts with the pair that opens it. */
  lemma OpenRun(track: seq<Reading>, j: nat, k: nat, st: State)
    requires k >= 2 && j + k < |track|
    requires InHour(track[j]) && InHour(track[j + k])
    requires forall t :: j <= t < j + k ==> track[t] == track[j]
    requires track[j + k].second != track[j].second
    requires Sound(st) && st.tmpSecs != track[j].second.value
    ensures ResolveFrom(track, j, st)
      == Prepend([1.0 / (k as real)],
                 ResolveFrom(track, j + 1, Draining(track[j].second.value, 1.0 / (k as real), k - 2)))
  {
    assert track[j + 1] == track[j];
    CountRepeatsOfRun(SecondReadings(track), j + 1, k);
    StepOpensRun(track, j, k, st);
    FoldStep(track, j, st);
  }

  function Sum(s: seq<real>): real {
    if |s| == 0 then 0.0 else s[0] + Sum(s[1..])
  }

  /** The k - 1 shares of a run of k readings add up to (k - 1)/k of a second. */
  lemma RunSharesTotal(k: nat)
    requires k >= 2
    ensures Sum(Repeat(1.0 / (k as real), k - 1)) == (k - 1) as real / (k as real)
  {
    SumOfRepeat(1.0 / (k as real), k - 1);
  }

  lemma {:induction false} SumOfRepeat(share: real, n: nat)
    ensures Sum(Repeat(share, n)) == (n as real) * share
  {
    if n > 0 {
      assert Repeat(share, n)[1..] == Repeat(share, n - 1);
      SumOfRepeat(share, n - 1);
    }
  }

  // ---------------------------------------------------------------------
  // When the fold succeeds

  /** The states the loop can be in once `repeats` has a value. */
  predicate Ready(st: State) {
    && Sound(st)
    && st.repeats.Some?
    && (st.tmpSecs != NoRun ==> st.tmpTime.Some?)
  }

  /** Over readings within an hour whose last two differ in their second,
      with `repeats` starting at 0, every pair is resolved. */
  lemma ResolveSucceeds(track: seq<Reading>)
    requires |track| >= 2 && HourTrack(track)
    requires track[|track| - 2].second != track[|track| - 1].second
    ensures Resolve(track).Ok?
  {
    ResolveFromSucceeds(track, 0, Initial);
  }

  lemma {:induction false} ResolveFromSucceeds(track: seq<Reading>, i: nat, st: State)
    requires |track| >= 2 && HourTrack(track)
    requires track[|track| - 2].second != track[|track| - 1].second
    requires Ready(st)
    ensures ResolveFrom(track, i, st).Ok?
    decreases |track| - i
  {
    if i + 1 < |track| {
      StepSucceeds(track, i, st);
      ResolveFromSucceeds(track, i + 1, Step(track, i, st).value.next);
    }
  }

  lemma StepSucceeds(track: seq<Reading>, i: nat, st: State)
    requires i + 1 < |track| && HourTrack(track)
    requires track[|track| - 2].second != track[|track| - 1].second
    requires Ready(st)
    ensures Step(track, i, st).Ok? && Ready(Step(track, i, st).value.next)
  {
    var n := |track|;
    var readings := SecondReadings(track);
    CorrectedSecondIsElapsed(track[i], track[i + 1]);
    if i + 1 < n - 1 {
      assert !Matches(readings, i + 1, n - 1) || !Matches(readings, i + 1, n - 2);
    }
  }

  // ---------------------------------------------------------------------
  // The loop as written

  /** As written, a track whose first pair is not a repeated pair stops at
      the first pair, reading `repeats` before anything assigned it. */
  lemma AsWrittenStopsOnOrdinaryStart(track: seq<Reading>)
    requires |track| >= 2
    requires InHour(track[0]) && InHour(track[1]) && track[0] != track[1]
    ensures ResolveAsWritten(track) == Err(UnboundLocal(0))
  {
    CorrectedSecondIsElapsed(track[0], track[1]);
  }

  /** When the first pair is a repeated pair it assigns `repeats`, and the
      loop as written agrees with the one that starts `repeats` at 0. */
  lemma AsWrittenAgreesOnRunStart(track: seq<Reading>)
    requires |track| >= 2
    requires InHour(track[0]) && track[1] == track[0]
    ensures ResolveAsWritten(track) == Resolve(track)
  {
    assert Step(track, 0, Unassigned) == Step(track, 0, Initial);
  }

  /** Two labels one second apart: the loop as written stops, the corrected
      one yields a delta of one second. */
  lemma AsWrittenCounterexample()
    ensures ResolveAsWritten(ReadTrack(["00:00:10", "00:00:11"])) == Err(UnboundLocal(0))
    ensures Resolve(ReadTrack(["00:00:10", "00:00:11"])) == Ok([1.0])
  {
    var track := [Reading(Some(0), Some(10)), Reading(Some(0), Some(11))];
    ReadsAs(["00:00:10", "00:00:11"], track);
    AsWrittenStopsOnOrdinaryStart(track);
    OrdinaryPair(track, 0, Initial);
    FoldStep(track, 0, Initial);
    assert ResolveFrom(track, 1, Initial) == Ok([]);
    PrependToNothing([1.0]);
  }

  // ---------------------------------------------------------------------
  // Worked cases

  /** The readings of a few literal labels, one label at a time. */
  lemma ReadsAs(labels: seq<string>, track: seq<Reading>)
    requires |labels| == |track|
    requires forall j :: 0 <= j < |labels| ==> |labels[j]| == 8
    requires forall j :: 0 <= j < |labels| ==> track[j].minute.Some? && track[j].second.Some?
    requires forall j :: 0 <= j < |labels| ==>
      && IsDigit(labels[j][3]) && IsDigit(labels[j][4]) && IsDigit(labels[j][6]) && IsDigit(labels[j][7])
      && track[j].minute.value == 10 * DigitValue(labels[j][3]) + DigitValue(labels[j][4])
      && track[j].second.value == 10 * DigitValue(labels[j][6]) + DigitValue(labels[j][7])
    ensures ReadTrack(labels) == track
  {
    forall j | 0 <= j < |labels|
      ensures ReadTrack(labels)[j] == track[j]
    {
      LabelFields(labels[j]);
    }
  }

  /** 00:00:58 then 00:01:02 is four seconds, not -56. */
  lemma MinuteRolloverCase()
    ensures Resolve(ReadTrack(["00:00:58", "00:01:02"])) == Ok([4.0])
  {
    var track := [Reading(Some(0), Some(58)), Reading(Some(1), Some(2))];
    ReadsAs(["00:00:58", "00:01:02"], track);
    OrdinaryPair(track, 0, Initial);
    FoldStep(track, 0, Initial);
    assert Gap(track[0], track[1]) == 4;
    assert ResolveFrom(track, 1, Initial) == Ok([]);
    PrependToNothing([4.0]);
  }

  /** A run of two at second 10 then second 11: the pair inside the run gets
      half a second, the pair leaving it a whole second. */
  lemma ShortRunCase()
    ensures Resolve(ReadTrack(["00:00:10", "00:00:10", "00:00:11"])) == Ok([0.5, 1.0])
  {
    var track := [Reading(Some(0), Some(10)), Reading(Some(0), Some(10)), Reading(Some(0), Some(11))];
    ReadsAs(["00:00:10", "00:00:10", "00:00:11"], track);
    ShortRunResolves(track);
  }

  lemma ShortRunResolves(track: seq<Reading>)
    requires track == [Reading(Some(0), Some(10)), Reading(Some(0), Some(10)), Reading(Some(0), Some(11))]
    ensures Resolve(track) == Ok([0.5, 1.0])
  {
    var half := 1.0 / (2 as real);
    assert half == 0.5;
    RunSubdivision(track, 0, 2, Initial);
    assert Repeat(half, 1) == [0.5];
    OrdinaryPair(track, 1, Idle(0.5));
    FoldStep(track, 1, Idle(0.5));
    assert Gap(track[1], track[2]) == 1;
    assert ResolveFrom(track, 2, Idle(0.5)) == Ok([]);
    PrependToNothing([1.0]);
    assert ResolveFrom(track, 0, Initial) == Prepend([0.5], Ok([1.0]));
    assert [0.5] + [1.0] == [0.5, 1.0];
  }

  /** 00:00:30 then 00:00:20: a second that goes down within one minute is
      not read as a wrap, so the pair gets a negative delta. */
  lemma BackwardSecondCase()
    ensures Resolve(ReadTrack(["00:00:30", "00:00:20"])) == Ok([-10.0])
  {
    var track := [Reading(Some(0), Some(30)), Reading(Some(0), Some(20))];
    ReadsAs(["00:00:30", "00:00:20"], track);
    OrdinaryPair(track, 0, Initial);
    FoldStep(track, 0, Initial);
    assert Gap(track[0], track[1]) == -10;
    assert ResolveFrom(track, 1, Initial) == Ok([]);
    PrependToNothing([-10.0]);
  }

  /** 00:00:10, 00:00:10, 00:01:10, 00:01:11: the look-ahead compares
      seconds only, so the label a minute later extends the run to three and
      the pair of equal labels gets a third of a second. */
  lemma SecondOnlyRunCase()
    ensures Resolve(ReadTrack(["00:00:10", "00:00:10", "00:01:10", "00:01:11"]))
      == Ok([1.0 / 3.0, 60.0, 1.0])
  {
    var track := [Reading(Some(0), Some(10)), Reading(Some(0), Some(10)),
                  Reading(Some(1), Some(10)), Reading(Some(1), Some(11))];
    ReadsAs(["00:00:10", "00:00:10", "00:01:10", "00:01:11"], track);
    SecondOnlyRunResolves(track);
  }

  lemma SecondOnlyRunResolves(track: seq<Reading>)
    requires track == [Reading(Some(0), Some(10)), Reading(Some(0), Some(10)),
                       Reading(Some(1), Some(10)), Reading(Some(1), Some(11))]
    ensures Resolve(track) == Ok([1.0 / 3.0, 60.0, 1.0])
  {
    var third := 1.0 / (3 as real);
    assert third == 1.0 / 3.0;
    CountRepeatsOfRun(SecondReadings(track), 1, 3);
    StepOpensRun(track, 0, 3, Initial);
    FoldStep(track, 0, Initial);
    SecondOnlyRunTail(track);
    assert [third] + [60.0, 1.0] == [third, 60.0, 1.0];
  }

  /** The pair leaving the run to the next minute, and the pair after it. */
  lemma SecondOnlyRunTail(track: seq<Reading>)
    requires track == [Reading(Some(0), Some(10)), Reading(Some(0), Some(10)),
                       Reading(Some(1), Some(10)), Reading(Some(1), Some(11))]
    ensures ResolveFrom(track, 1, Draining(10, 1.0 / 3.0, 1)) == Ok([60.0, 1.0])
  {
    var running := Draining(10, 1.0 / 3.0, 1);
    assert Step(track, 1, running) == Ok(Resolved(60.0, Idle(1.0 / 3.0)));
    FoldStep(track, 1, running);
    OrdinaryPair(track, 2, Idle(1.0 / 3.0));
    FoldStep(track, 2, Idle(1.0 / 3.0));
    assert Gap(track[2], track[3]) == 1;
    assert ResolveFrom(track, 3, Idle(1.0 / 3.0)) == Ok([]);
    PrependToNothing([1.0]);
    assert [60.0] + [1.0] == [60.0, 1.0];
  }

  /** 00:00:10, 00:00:10, 00:01:10, 00:01:10, 00:01:11: the look-ahead counts
      four labels at second 10 across the minute, the ordinary pair into the
      next minute still counts the run down, and the second pair of equal
      labels, at the run's corrected second, gets the stale share 1/4, not 1/2. */
  lemma StaleShareCase()
    ensures Resolve(ReadTrack(["00:00:10", "00:00:10", "00:01:10", "00:01:10", "00:01:11"]))
      == Ok([1.0 / 4.0, 60.0, 1.0 / 4.0, 1.0])
  {
    var track := [Reading(Some(0), Some(10)), Reading(Some(0), Some(10)),
                  Reading(Some(1), Some(10)), Reading(Some(1), Some(10)), Reading(Some(1), Some(11))];
    ReadsAs(["00:00:10", "00:00:10", "00:01:10", "00:01:10", "00:01:11"], track);
    StaleShareResolves(track);
  }

  lemma StaleShareResolves(track: seq<Reading>)
    requires track == [Reading(Some(0), Some(10)), Reading(Some(0), Some(10)),
                       Reading(Some(1), Some(10)), Reading(Some(1), Some(10)), Reading(Some(1), Some(11))]
    ensures Resolve(track) == Ok([1.0 / 4.0, 60.0, 1.0 / 4.0, 1.0])
  {
    var quarter := 1.0 / (4 as real);
    assert quarter == 1.0 / 4.0;
    CountRepeatsOfRun(SecondReadings(track), 1, 4);
    StepOpensRun(track, 0, 4, Initial);
    FoldStep(track, 0, Initial);
    StaleShareMiddle(track);
    assert [quarter] + [60.0, 1.0 / 4.0, 1.0] == [quarter, 60.0, 1.0 / 4.0, 1.0];
  }

  /** The pair into the next minute, met while two pairs of the run remain. */
  lemma StaleShareMiddle(track: seq<Reading>)
    requires track == [Reading(Some(0), Some(10)), Reading(Some(0), Some(10)),
                       Reading(Some(1), Some(10)), Reading(Some(1), Some(10)), Reading(Some(1), Some(11))]
    ensures ResolveFrom(track, 1, Draining(10, 1.0 / 4.0, 2)) == Ok([60.0, 1.0 / 4.0, 1.0])
  {
    assert Gap(track[1], track[2]) == 60;
    OrdinaryPairDuringRun(track, 1, 10, 1.0 / 4.0, 2);
    FoldStep(track, 1, Draining(10, 1.0 / 4.0, 2));
    StaleShareTail(track);
    assert [60.0] + [1.0 / 4.0, 1.0] == [60.0, 1.0 / 4.0, 1.0];
  }

  /** The stale pair of equal labels, then the pair leaving them. */
  lemma StaleShareTail(track: seq<Reading>)
    requires track == [Reading(Some(0), Some(10)), Reading(Some(0), Some(10)),
                       Reading(Some(1), Some(10)), Reading(Some(1), Some(10)), Reading(Some(1), Some(11))]
    ensures ResolveFrom(track, 2, Draining(10, 1.0 / 4.0, 1)) == Ok([1.0 / 4.0, 1.0])
  {
    StepInsideRun(track, 2, 1.0 / 4.0, 1);
    FoldStep(track, 2, Draining(10, 1.0 / 4.0, 1));
    OrdinaryPair(track, 3, Idle(1.0 / 4.0));
    FoldStep(track, 3, Idle(1.0 / 4.0));
    assert Gap(track[3], track[4]) == 1;
    assert ResolveFrom(track, 4, Idle(1.0 / 4.0)) == Ok([]);
    PrependToNothing([1.0]);
    assert [1.0 / 4.0] + [1.0] == [1.0 / 4.0, 1.0];
  }
}

=== FILE: results.dfy ===
/** Failure-compatible wrappers shared by the model, and the faults the
    delta resolver and the derivative passes can raise. */
module Results {

  datatype Option<+T> = None | Some(value: T)

  /** Every way the computation can stop instead of producing a series. */
  datatype Fault =
    /** fewer than two points: the padding step reads the last element of an empty list */
    | InsufficientData
    /** the label at `index` has a minute or second field that is not an integer */
    | MalformedTimestamp(index: nat)
    /** the run-length look-ahead started at `index` ran past the last label */
    | RunLengthOverrun(index: nat)
    /** pair `index` read a resolver variable that was never assigned */
    | UnboundLocal(index: nat)

  datatype Result<+T> = Ok(value: T) | Err(fault: Fault) {

    predicate IsFailure() {
      Err?
    }

    function PropagateFailure<U>(): Result<U>
      requires Err?
    {
      Err(fault)
    }

    function Extract(): T
      requires Ok?
    {
      value
    }
  }
}

=== FILE: runs.dfy ===
/** The run-length look-ahead: how many consecutive labels share the second
    field of the label where a repeated-timestamp pair was detected. It works
    on `readings`, the second field read from each label (`Seconds`), `None`
    where the field is not an integer. */
module Runs {
  import opened Results
  import opened Timestamps

  /** Label `j` has a readable second field equal to the one of label `spot`.
      Only second fields are compared; minutes play no part. */
  predicate Matches(readings: seq<Option<int>>, spot: nat, j: nat) {
    spot < |readings| && j < |readings| && readings[j].Some? && readings[j] == readings[spot]
  }

  /** The loop of the look-ahead, with `count` labels accounted for so far;
      the label under inspection is `spot + count - 1`. */
  function CountFrom(readings: seq<Option<int>>, spot: nat, count: nat): (r: Result<nat>)
    requires count >= 2
    decreases |readings| - (spot + count - 1)
    ensures r.Ok? ==>
      && r.value >= count
      && spot + r.value - 1 < |readings|
      && (forall j :: spot + count - 1 <= j < spot + r.value - 1 ==> Matches(readings, spot, j))
      && readings[spot].Some?
      && readings[spot + r.value - 1].Some?
      && readings[spot + r.value - 1] != readings[spot]
    ensures (r.Err? && r.fault.RunLengthOverrun?)
      <==> forall j :: spot + count - 1 <= j < |readings| ==> Matches(readings, spot, j)
    ensures r.Err? && r.fault.MalformedTimestamp? ==>
      && (r.fault.index == spot || spot + count - 1 <= r.fault.index)
      && r.fault.index < |readings|
      && readings[r.fault.index].None?
      && (forall j :: spot + count - 1 <= j < r.fault.index ==> Matches(readings, spot, j))
    ensures r.Err? ==> r.fault == RunLengthOverrun(spot) || r.fault.MalformedTimestamp?
  {
    var spot2 := spot + count - 1;
    if spot2 >= |readings| then Err(RunLengthOverrun(spot))
    else if readings[spot2].None? then
      assert !Matches(readings, spot, spot2);
      Err(MalformedTimestamp(spot2))
    else if readings[spot].None? then
      assert !Matches(readings, spot, spot2);
      Err(MalformedTimestamp(spot))
    else if readings[spot2] == readings[spot] then CountFrom(readings, spot, count + 1)
    else
      assert !Matches(readings, spot, spot2);
      Ok(count)
  }

  /** `countRepeats`: two (the pair that triggered the look-ahead) plus the
      number of labels after `spot` that share its second field, up to the
      first one that does not. Running off the end is a fault. */
  function CountRepeats(readings: seq<Option<int>>, spot: nat): (r: Result<nat>)
    ensures r.Ok? ==>
      && r.value >= 2
      && spot + r.value - 1 < |readings|
      && (forall j :: spot < j < spot + r.value - 1 ==> Matches(readings, spot, j))
      && readings[spot].Some?
      && readings[spot + r.value - 1].Some?
      && readings[spot + r.value - 1] != readings[spot]
    ensures (r.Err? && r.fault.RunLengthOverrun?)
      <==> forall j :: spot < j < |readings| ==> Matches(readings, spot, j)
    ensures r.Err? && r.fault.MalformedTimestamp? ==>
      && spot <= r.fault.index < |readings|
      && readings[r.fault.index].None?
      && (forall j :: spot < j < r.fault.index ==> Matches(readings, spot, j))
    ensures r.Err? ==> r.fault == RunLengthOverrun(spot) || r.fault.MalformedTimestamp?
  {
    CountFrom(readings, spot, 2)
  }

  /** A run of equal second fields from `spot`, ended by a readable label
      with another second field, has exactly the length the look-ahead reports. */
  lemma CountRepeatsOfRun(readings: seq<Option<int>>, spot: nat, k: nat)
    requires k >= 2 && spot + k - 1 < |readings|
    requires readings[spot].Some?
    requires forall j :: spot < j < spot + k - 1 ==> readings[j] == readings[spot]
    requires readings[spot + k - 1].Some? && readings[spot + k - 1] != readings[spot]
    ensures CountRepeats(readings, spot) == Ok(k)
  {
    CountFromOfRun(readings, spot, 2, k);
  }

  lemma {:induction false} CountFromOfRun(readings: seq<Option<int>>, spot: nat, count: nat, k: nat)
    requires 2 <= count <= k && spot + k - 1 < |readings|
    requires readings[spot].Some?
    requires forall j :: spot < j < spot + k - 1 ==> readings[j] == readings[spot]
    requires readings[spot + k - 1].Some? && readings[spot + k - 1] != readings[spot]
    ensures CountFrom(readings, spot, count) == Ok(k)
    decreases k - count
  {
    if count < k {
      assert Matches(readings, spot, spot + count - 1);
      CountFromOfRun(readings, spot, count + 1, k);
    }
  }
}

=== FILE: timestamps.dfy ===
/** Timestamp labels of the form `HH:MM:SS`: reading their minute and second
    fields, the minute-rollover correction, and the reference formula the
    correction agrees with. */
module Timestamps {
  import opened Results

  /** The part of a label the resolver uses; the hour is ignored. */
  datatype Stamp = Stamp(minute: int, second: int)

  predicate IsDigit(c: char) {
    '0' <= c <= '9'
  }

  function DigitValue(c: char): (d: int)
    requires IsDigit(c)
    ensures 0 <= d <= 9
  {
    c as int - '0' as int
  }

  /** ASCII characters Python's `int` strips as whitespace. */
  predicate IsSpace(c: char) {
    c == ' ' || 9 <= c as int <= 13 || 28 <= c as int <= 31
  }

  /** Python's `int` applied to a field of at most two characters: digits,
      optionally with one surrounding space or a leading sign. */
  function ParseField(f: string): (r: Option<int>)
    requires |f| <= 2
    ensures r.Some? ==> -9 <= r.value <= 99
    ensures r.Some? && (r.value < 0 || r.value > 9) ==> |f| == 2 && IsDigit(f[1])
    // a field without a digit is rejected
    ensures r.Some? ==> exists k :: 0 <= k < |f| && IsDigit(f[k])
    // so is one that ends in anything but a digit, or a space after a digit,
    // and one that starts with anything but a digit, a space or a sign
    ensures r.Some? ==> |f| > 0 && (IsDigit(f[|f| - 1]) || (IsDigit(f[0]) && IsSpace(f[|f| - 1])))
    ensures r.Some? && |f| == 2 ==> IsDigit(f[0]) || IsSpace(f[0]) || f[0] == '+' || f[0] == '-'
    // one or two digits read as the decimal number they spell
    ensures |f| == 1 && IsDigit(f[0]) ==> r == Some(DigitValue(f[0]))
    ensures |f| == 2 && IsDigit(f[0]) && IsDigit(f[1]) ==> r == Some(10 * DigitValue(f[0]) + DigitValue(f[1]))
    // a digit with surrounding space or a sign reads as that digit, signed
    ensures |f| == 2 && IsDigit(f[0]) && IsSpace(f[1]) ==> r == Some(DigitValue(f[0]))
    ensures |f| == 2 && (IsSpace(f[0]) || f[0] == '+') && IsDigit(f[1]) ==> r == Some(DigitValue(f[1]))
    ensures |f| == 2 && f[0] == '-' && IsDigit(f[1]) ==> r == Some(-DigitValue(f[1]))
  {
    if |f| == 1 then
      if IsDigit(f[0]) then Some(DigitValue(f[0])) else None
    else if |f| == 2 then
      if IsDigit(f[0]) && IsDigit(f[1]) then Some(10 * DigitValue(f[0]) + DigitValue(f[1]))
      else if IsDigit(f[0]) && IsSpace(f[1]) then Some(DigitValue(f[0]))
      else if (IsSpace(f[0]) || f[0] == '+') && IsDigit(f[1]) then Some(DigitValue(f[1]))
      else if f[0] == '-' && IsDigit(f[1]) then Some(-DigitValue(f[1]))
      else None
    else
      None
  }

  /** `time[-2:]`: the last two characters, or the whole label when shorter. */
  function SecondsField(time: string): (f: string)
    ensures |f| <= 2
  {
    if |time| >= 2 then time[|time| - 2..] else time
  }

  /** `time[3:5]`, with Python's clamping of slice bounds to the length. */
  function MinutesField(time: string): (f: string)
    ensures |f| <= 2
  {
    var lo := if |time| < 3 then |time| else 3;
    var hi := if |time| < 5 then |time| else 5;
    time[lo..hi]
  }

  function Seconds(time: string): Option<int> {
    ParseField(SecondsField(time))
  }

  function Minutes(time: string): Option<int> {
    ParseField(MinutesField(time))
  }

  /** The minute and second fields read from one label, `None` where the
      field is not an integer. */
  datatype Reading = Reading(minute: Option<int>, second: Option<int>)

  function ReadLabel(time: string): Reading {
    Reading(Minutes(time), Seconds(time))
  }

  /** The fields of every label of a track, read once. */
  function ReadTrack(labels: seq<string>): (track: seq<Reading>)
    ensures |track| == |labels|
    ensures forall j :: 0 <= j < |labels| ==> track[j] == ReadLabel(labels[j])
  {
    seq(|labels|, j requires 0 <= j < |labels| => ReadLabel(labels[j]))
  }

  /** The second field of every reading, as the run look-ahead consumes them. */
  function SecondReadings(track: seq<Reading>): (readings: seq<Option<int>>)
    ensures |readings| == |track|
    ensures forall j :: 0 <= j < |track| ==> readings[j] == track[j].second
  {
    seq(|track|, j requires 0 <= j < |track| => track[j].second)
  }

  /** Both fields are readable and name a minute and a second of an hour. */
  predicate InHour(r: Reading) {
    && r.minute.Some? && r.second.Some?
    && 0 <= r.minute.value < 60 && 0 <= r.second.value < 60
  }

  function StampOf(r: Reading): Stamp
    requires r.minute.Some? && r.second.Some?
  {
    Stamp(r.minute.value, r.second.value)
  }

  /** A label `HH:MM:SS` of ASCII digits whose minute and second are below 60. */
  predicate WellFormed(time: string) {
    && |time| == 8
    && time[2] == ':' && time[5] == ':'
    && IsDigit(time[0]) && IsDigit(time[1])
    && IsDigit(time[3]) && IsDigit(time[4])
    && IsDigit(time[6]) && IsDigit(time[7])
    && DigitValue(time[3]) < 6 && DigitValue(time[6]) < 6
  }

  function TwoDigits(n: nat): (s: string)
    requires n < 100
    ensures |s| == 2 && IsDigit(s[0]) && IsDigit(s[1])
  {
    [('0' as int + n / 10) as char, ('0' as int + n % 10) as char]
  }

  /** Reading a rendered two-digit field gives back its number. */
  lemma ParseTwoDigits(n: nat)
    requires n < 100
    ensures ParseField(TwoDigits(n)) == Some(n)
  {
  }

  /** Renders the label `HH:MM:SS` for the given hour, minute and second. */
  function FormatLabel(hour: nat, minute: nat, second: nat): (rendered: string)
    requires hour < 100 && minute < 100 && second < 100
    ensures |rendered| == 8
  {
    TwoDigits(hour) + ":" + TwoDigits(minute) + ":" + TwoDigits(second)
  }

  /** Seconds added to the second point's second field when the minutes
      differ: a forward step of any size, or one wrap past the hour. */
  function Rollover(firstMinute: int, secondMinute: int): int {
    if secondMinute != firstMinute then
      if secondMinute > firstMinute then (secondMinute - firstMinute) * 60
      else ((60 - firstMinute) + secondMinute) * 60
    else 0
  }

  /** The second difference from `a` to `b` plus sixty times the minute
      difference taken modulo the hour. When `b` is less than an hour after
      `a` this is the elapsed time; a second that goes down within one
      minute gives a negative value. */
  function Elapsed(a: Stamp, b: Stamp): int {
    (b.second - a.second) + 60 * ((b.minute - a.minute) % 60)
  }

  /** The second field is the number in the last two characters and the
      minute field the number in characters 3 and 4, each in 0..99; a
      well-formed label has both below 60. */
  lemma LabelFields(time: string)
    requires |time| == 8
    requires IsDigit(time[3]) && IsDigit(time[4]) && IsDigit(time[6]) && IsDigit(time[7])
    ensures Seconds(time) == Some(10 * DigitValue(time[6]) + DigitValue(time[7]))
    ensures Minutes(time) == Some(10 * DigitValue(time[3]) + DigitValue(time[4]))
    ensures 0 <= Seconds(time).value <= 99 && 0 <= Minutes(time).value <= 99
    ensures WellFormed(time) ==> InHour(ReadLabel(time))
  {
    assert SecondsField(time) == [time[6], time[7]];
    assert MinutesField(time) == [time[3], time[4]];
  }

  /** Reading a rendered label gives back the minute and second rendered. */
  lemma {:induction false} FormatThenRead(hour: nat, minute: nat, second: nat)
    requires hour < 100 && minute < 100 && second < 100
    ensures Seconds(FormatLabel(hour, minute, second)) == Some(second)
    ensures Minutes(FormatLabel(hour, minute, second)) == Some(minute)
    ensures WellFormed(FormatLabel(hour, minute, second)) <==> minute < 60 && second < 60
  {
    var time := FormatLabel(hour, minute, second);
    assert time[3..5] == TwoDigits(minute);
    assert time[6..8] == TwoDigits(second);
    LabelFields(time);
  }

  /** Every well-formed label is the rendering of its own fields. */
  lemma {:induction false} ReadThenFormat(time: string)
    requires WellFormed(time)
    ensures var hour := 10 * DigitValue(time[0]) + DigitValue(time[1]);
      FormatLabel(hour, Minutes(time).value, Seconds(time).value) == time
  {
    LabelFields(time);
    var hour := 10 * DigitValue(time[0]) + DigitValue(time[1]);
    var rendered := FormatLabel(hour, Minutes(time).value, Seconds(time).value);
    assert forall k :: 0 <= k < 8 ==> rendered[k] == time[k];
  }

  /** For minutes of one hour, the rollover correction is a whole number of
      minutes taken modulo the hour. */
  lemma RolloverIsModular(firstMinute: int, secondMinute: int)
    requires 0 <= firstMinute < 60 && 0 <= secondMinute < 60
    ensures Rollover(firstMinute, secondMinute) == 60 * ((secondMinute - firstMinute) % 60)
    ensures Rollover(firstMinute, secondMinute) >= 0
    ensures Rollover(firstMinute, secondMinute) == 0 <==> firstMinute == secondMinute
  {
  }

  /** For readings within an hour the corrected second of `b`, less the
      second of `a`, is `Elapsed`; it is never negative, and it equals
      the second of `a` exactly when the two readings agree. */
  lemma {:induction false} CorrectedSecondIsElapsed(a: Reading, b: Reading)
    requires InHour(a) && InHour(b)
    ensures b.second.value + Rollover(a.minute.value, b.minute.value) - a.second.value
      == Elapsed(StampOf(a), StampOf(b))
    ensures b.second.value + Rollover(a.minute.value, b.minute.value) >= 0
    ensures b.second.value + Rollover(a.minute.value, b.minute.value) == a.second.value <==> a == b
  {
    RolloverIsModular(a.minute.value, b.minute.value);
  }
}
